=== FILE: README.md ===
# DESHIFTER: a verified model of arosics' shift correction

arosics co-registers a satellite image to a reference image. Its `COREG`
step measures a spatial shift. The `DESHIFTER` class then applies that shift to
the image. This project models `DESHIFTER` from `components/DeShifter.py`:

- **Construction.** `__init__` reads the co-registration results and the
  keyword options. It then chooses the output coordinate grid in
  `_get_out_grid`, which uses `_grids_alignable` to decide whether the image can
  take over the reference grid's origin. Finally it checks the resampling
  algorithm and the warping strategy.
- **Shift correction.** `correct_shifts` takes one of three paths:
  - no resampling: the image is re-anchored and, optionally, clipped;
  - resampling through the `gdalwarp` command line (`GDAL_cmd`);
  - resampling through the `warp_ndarray` library call (`GDAL_lib`).

  Each path chooses a clip extent and snaps it onto the output grid in
  `_get_out_extent`.
- **Results.** `deshift_results` reports the outcome.

Modules:

- `Geo` (geo.dfy): the value types, namely geotransforms, grids, extents,
  images, GeoArrays, GCPs and warnings.
- `Alignability` (alignability.dfy): `_grids_alignable`, and what its modulo
  test means.
- `GridPolicy` (grid_policy.dfy): `_get_out_grid`, with the priority of
  `target_xyGrid`, then `out_gsd`, then `match_gsd`, then the default.
- `OutExtent` (out_extent.dfy): how `_get_out_extent` chooses the clip extent
  and snaps its corners.
- `DeShifter` (deshifter.dfy):
  - `Configure` is `__init__` as a pure function. It returns a configuration or
    the error `__init__` raises.
  - The specification `Run` gives one `correct_shifts` call as a function of
    the configuration, the object's fields and the collaborators.
  - The class `Deshifter` has the object's mutable fields. Its methods
    `CorrectShifts`, `GetOutExtent` and the per-path methods update those
    fields in place, and each is proved to follow `Run` and its parts.
- `DeShifterProperties` (deshifter_properties.dfy): properties of `Run` and
  `Configure`.

Collaborators from other libraries are fields of the datatype `Env` and are
left uninterpreted. They are:

- `prj_equal` and `is_coord_grid_equal`;
- `find_nearest`;
- GeoArray band indexing and `get_mapPos`;
- `warp_ndarray`;
- the `gdalwarp` run together with the reading of its output file.

`find_nearest` is the one exception: the properties about snapping assume only
`SnapContract`. That contract says the result is the nearest grid line on the
inward side: it lies on the axis's grid lines, does not move outward ('on'
rounds up, 'off' rounds down), and moves less than one pitch, so a coordinate
already on a grid line stays put. The contract follows the comment at
`components/DeShifter.py:184`, which moves only odd coordinates. `GridSnap` shows that a function
meeting it exists.

The model follows the code as written, including these behaviours:

- An explicitly passed `clipextent` is never used. `_get_out_extent` replaces
  it by the box bounds, so a second call also clips to the box bounds rather
  than the footprint.
- As a consequence, two no-resampling calls with `cliptoextent` set do not
  report the same result when the footprint is smaller than the box: the
  first clips to the footprint, the second to the box. Without
  `cliptoextent`, a second call reports exactly what the first did.
- `ymax` is snapped against the x axis `out_grid[0]`.
- The result's 'updated geotransform' is `shift_gt`, not `updated_gt`.
- The docstring offers `q3`, but only `q2` is accepted.
- A scalar `out_gsd` fails at `len()`.
- `GDAL_cmd` counts a run as successful when the exit code is anything other
  than 1 and the output file exists.
- A north-up reference grid has a negative signed y step. Passed as-is to
  `_grids_alignable`, it makes a reference coarser than the image not
  alignable. When `out_gsd` is given together with `match_gsd`, the warning
  that `match_gsd` is ignored is issued whenever the requested pair differs
  from the signed reference steps. For a positive y size it always does, even
  when that size equals the reference pixel size.

The docstring at `components/DeShifter.py:59-60` says a given `clipextent` is
"automatically snapped to the output grid". The code at
`components/DeShifter.py:177-181` never uses it, and the model follows the
code.

## Model

| member | source | states |
|---|---|---|
| Alignability.CheckRaises | components/DeShifter.py:163-164 | ZeroDivisionError needs a zero size; an x pair whose smaller size is zero always raises (a zero beside a negative size does not); a failed x test short-circuits so that the y sizes are never divided by |
| Alignability.ZeroBesideNegativeDoesNotRaise | components/DeShifter.py:163 | a zero x size beside -10 does not raise (max 0, min -10), while beside +10 it does |
| Alignability.GridsAlignable | components/DeShifter.py:161-173 | the verdict is true iff on each axis the larger pixel size is a whole multiple of the smaller; the warning is issued exactly when the verdict is false; only defined where the source does not raise ZeroDivisionError |
| Alignability.AlignableIffMultiple | components/DeShifter.py:163 | `max % min == 0` holds iff the larger size is an integer multiple of the smaller |
| Alignability.GridsAlignableSymmetric | components/DeShifter.py:162-173 | swapping input and output sizes changes neither whether the call raises nor the verdict |
| Alignability.GridsAlignableReflexive | components/DeShifter.py:162-173 | equal nonzero pixel sizes never raise and are always alignable |
| Alignability.NorthUpReferenceStep | components/DeShifter.py:123 | against the negative signed y step of a north-up reference, an image y size is alignable iff the reference size divides it |
| Alignability.CoarserNorthUpReferenceNotAlignable | components/DeShifter.py:163-171 | image pixels of 10 and a north-up reference step of -30 are judged not alignable, while 10 against +30 is alignable |
| GridPolicy.GetGrid | components/DeShifter.py:124 | the grid built by get_grid starts at the geotransform's origin and has signed steps (xgsd, -ygsd) |
| GridPolicy.GetOutGrid | components/DeShifter.py:113-158 | the shape assertions fail first and a scalar out_gsd fails; a target grid wins with no warning; an explicit out_gsd gives those steps, with the reference origin iff align_grids and the sizes are alignable; the match_gsd warning is issued iff the pair differs from the reference steps; match_gsd alone gives the reference grid or the reference steps at the image origin; the default keeps the image pixel size and takes the reference origin iff aligned, with no warning or exactly the not-alignable one; ZeroDivisionError exactly where the source divides by zero |
| GridPolicy.CoarserNorthUpReferenceKeepsImageGrid | components/DeShifter.py:152-158 | with align_grids, 10-unit image pixels and a 30-unit north-up reference, the image's own grid is kept and a not-alignable warning is issued |
| GridPolicy.MatchGsdWarnsForReferenceSize | components/DeShifter.py:131-136 | against a north-up reference, the match_gsd warning is issued even when out_gsd equals the reference pixel size |
| OutExtent.GridSnap | components/DeShifter.py:184-189 | a snapping function that lands on a grid line, no further than one pitch away, and never outward |
| OutExtent.OnAxisClose | components/DeShifter.py:184 | two grid lines less than one pitch apart are the same line |
| OutExtent.SnapFixesGridLine | components/DeShifter.py:184 | under the snapping contract a coordinate already on a grid line is not moved: only odd coordinates are |
| OutExtent.GridSnapMeetsContract | components/DeShifter.py:184 | GridSnap meets the snapping contract: results on the grid, moved inside, by less than one pitch |
| OutExtent.BoxExtent | components/DeShifter.py:180-181 | the box bounds (xmin, xmax, ymin, ymax) are reordered to (xmin, ymin, xmax, ymax) without changing any number |
| OutExtent.ChooseClipExtent | components/DeShifter.py:176-181 | the footprint bounds are used iff cliptoextent is set and no extent is stored; otherwise, including for an explicit clipextent, the box bounds are used |
| OutExtent.SnapExtent | components/DeShifter.py:184-190 | under the snapping contract xmin, xmax and ymax lie on the x grid and ymin on the y grid; every corner moves inside the extent by less than one pitch; corners already on their grid line stay where they are |
| OutExtent.SecondChoiceUsesBox | components/DeShifter.py:177-181 | once an extent is stored, the next choice is always the box bounds |
| OutExtent.InwardSnapExample | components/DeShifter.py:184-190 | (5, 5, 95, 95) on a 10-unit grid becomes (10, 10, 90, 90) |
| OutExtent.OnGridExtentUnchanged | components/DeShifter.py:184-190 | for any snapping function meeting the contract, an extent already on a 10-unit grid comes back unchanged |
| OutExtent.YmaxOffTheYAxis | components/DeShifter.py:189 | because ymax is snapped on the x axis, it can end up off the y grid while ymin is on it |
| DeShifter.ResampCodesAreZeroToEleven | components/DeShifter.py:27-28 | the twelve algorithm names map one-to-one onto the GDAL codes 0 to 11 |
| DeShifter.ParseWarpAlg | components/DeShifter.py:103 | a warping strategy is accepted iff it is 'GDAL_cmd' or 'GDAL_lib' |
| DeShifter.DefaultOptions | components/DeShifter.py:82-96 | the keyword defaults set no grid option, name the accepted 'cubic' (code 2) and 'GDAL_lib', clip to the footprint, and give no band, nodata, CPU count or output path |
| DeShifter.Configure | components/DeShifter.py:81-103 | grid errors propagate; a target axis shorter than two samples raises GridAxisTooShort before any name check; the resampling algorithm is checked before the warping strategy; with a usable grid, construction succeeds iff both names are valid; a success holds the chosen grid and its warnings, out_gsd as the absolute grid steps, quiet off in verbose mode, and nodata defaulting to the image's; a success keeps the image, co-registration results and options, selects GdalCmd exactly for 'GDAL_cmd', and takes the temporary format ENVI or VRT from tempAsENVI |
| DeShifter.InitialState | components/DeShifter.py:68-110 | updated_gt is the geotransform of updated_map_info; a given updated map info becomes updated_map_info and its geotransform updated_gt; with none, the map info is built from the image and updated_gt equals shift_gt; the flags are cleared, nothing is tracked and nothing is shifted yet |
| DeShifter.Results | components/DeShifter.py:304-315 | the record reports shift_gt as 'updated geotransform', with the flags, map info, projection and arrays as stored |
| DeShifter.NeedsResampling | components/DeShifter.py:197-199 | align_grids, a projection that differs from the reference, or a geotransform off the output grid each force resampling; with none of them there is no resampling |
| DeShifter.HasGcps | components/DeShifter.py:272 | the GCP list counts only when it holds at least one GCP: None and an empty list both count as none |
| DeShifter.ApplyOriginShift | components/DeShifter.py:272-273 | without a non-empty GCP list the origin comes from updated_gt; every other entry keeps its value |
| DeShifter.InputArray | components/DeShifter.py:271 | with band2process None or 0 the whole array is used, otherwise the selected band |
| DeShifter.LibWarpCall | components/DeShifter.py:271-287 | warp_ndarray gets the array InputArray chooses, the shifted origin unless GCPs are given, the GCPs unchanged, a resampling code in 0..11 naming the chosen algorithm, the same nodata in and out, out_gsd, the snapped extent, and the CPUs and quiet settings |
| DeShifter.CmdCall | components/DeShifter.py:235-239 | the gdalwarp command names the configured (supported) algorithm, the nonnegative out_gsd, the reference projection, the image file, the snapped extent and one nodata value for source and target |
| DeShifter.NoResamplePath | components/DeShifter.py:205-224 | sets is_shifted but not is_resampled; leaves shift_gt alone and puts it into GeoArray_shifted; without clipping, keeps the input array and the updated georeferencing; with clipping, keeps updated_gt and the map info consistent |
| DeShifter.LibPath | components/DeShifter.py:269-295 | sets both flags; the engine's geotransform becomes shift_gt and the map info, and its array and projection are adopted; updated_gt and shift_prj are unchanged |
| DeShifter.CmdPath | components/DeShifter.py:228-265 | succeeds iff the exit code is not 1 and the output exists; on success both flags are set, the updated projection is kept, and shift_gt, shift_prj, the map info and the arrays are taken from the output read back, with updated_gt unchanged; on failure the error is tracked and then raised, and nothing but the stored extent and the tracked errors changes |
| DeShifter.Run | components/DeShifter.py:193-301 | each guard outcome and warping strategy selects its own path function; on success is_shifted is set and is_resampled is set iff the guard chose resampling; only GDAL_cmd can fail; the chosen clip extent is always stored |
| DeShifter.Deshifter.constructor | components/DeShifter.py:67-110 | the new object's fields are InitialState of its configuration |
| DeShifter.Deshifter.Create | components/DeShifter.py:31-103 | construction succeeds iff Configure does, with a fresh object in the initial state; otherwise the same error |
| DeShifter.Deshifter.GetOutExtent | components/DeShifter.py:176-190 | stores the chosen clip extent in the object and returns it snapped |
| DeShifter.Deshifter.DeshiftResults | components/DeShifter.py:304-315 | the record of the object's current fields |
| DeShifter.Deshifter.CorrectShifts | components/DeShifter.py:193-301 | the new fields and the result are exactly those of Run applied to the old fields |
| DeShifter.Deshifter.CorrectWithoutResampling | components/DeShifter.py:205-224 | updates the fields in place as NoResamplePath says |
| DeShifter.Deshifter.ResampleWithCommand | components/DeShifter.py:228-265 | updates the fields and raises as CmdPath says |
| DeShifter.Deshifter.AdoptCommandOutput | components/DeShifter.py:245-257 | adopts the geotransform, projection and array read back from gdalwarp's output and sets both flags |
| DeShifter.Deshifter.ShiftOrigin | components/DeShifter.py:272-273 | overwrites the origin of shift_gt in place as ApplyOriginShift says |
| DeShifter.Deshifter.ResampleWithLibrary | components/DeShifter.py:269-295 | updates the fields in place as LibPath says |
| DeShifter.Deshifter.PrepareWarp | components/DeShifter.py:271-287 | builds the warp_ndarray call of LibWarpCall, shifting the origin and storing the extent on the way |
| DeShifter.Deshifter.AdoptWarpOutput | components/DeShifter.py:289-295 | adopts the array, geotransform and projection from warp_ndarray and sets both flags |
| DeShifterProperties.DocumentedQ3Rejected | components/DeShifter.py:55 | the 'q3' the docstring lists is rejected at construction |
| DeShifterProperties.DefaultsConstruct | components/DeShifter.py:82-103 | the keyword defaults always construct, with GDAL_lib and the image's own grid |
| DeShifterProperties.NoResampleWithClip | components/DeShifter.py:210-221 | clipping adopts the window get_mapPos cuts at the snapped extent; the reported geotransform stays shift_gt |
| DeShifterProperties.LibraryPathReportsWarpGt | components/DeShifter.py:276-295 | on the GDAL_lib path the reported geotransform and map info are warp_ndarray's, while updated_gt keeps its old value |
| DeShifterProperties.NoResampleIdempotentWithoutClip | components/DeShifter.py:205-221 | without cliptoextent a second no-resampling call takes the same path and returns the same record |
| DeShifterProperties.ClippedNoResampleNotIdempotent | components/DeShifter.py:177-216 | with cliptoextent and a footprint smaller than the box, the first call clips at xmax 50 and the second at xmax 100 |
| DeShifterProperties.ExtentStoredByRun | components/DeShifter.py:177-181 | a call stores its chosen extent, so the next call clips to the box bounds |
| DeShifterProperties.NoResampleIgnoresEngines | components/DeShifter.py:199-224 | without resampling, the outcome does not depend on warp_ndarray, gdalwarp or band selection |
| DeShifterProperties.ExplicitExtentDiscarded | components/DeShifter.py:177-181 | an explicitly given clipextent is replaced by the box bounds on the first call |

## Left out

- `OutExtent.SnapExtent`: the snapping contract covers only axes of exactly
  two distinct samples. `find_nearest` also accepts a `target_xyGrid` axis
  of any other length; for such a grid the model states nothing about the
  snapped corners.

- Coordinates, pixel sizes and geotransforms are integers. Real-valued
  (floating-point) coordinates and their rounding are not modelled.
- Arrays are opaque `Pixels` values. Band indexing, `get_mapPos`,
  `warp_ndarray`, `prj_equal`, `is_coord_grid_equal` and `find_nearest` are
  uninterpreted collaborators in `Env`. Only `find_nearest` is constrained, by
  `SnapContract`.
- The `GDAL_cmd` path's temporary file, subprocess call, GDAL/rasterio reads
  and tempfile cleanup are one collaborator, `Env.gdalwarp`. It returns the
  exit code, whether the output exists, and what was read. The
  "not tested" warning and the printed error text are not modelled.
- Writing the output file (`save` when `path_out` is set), timing and verbose
  prints are I/O. They are left out, so `pathOut`, `fmtOut` and `tempDir` are
  stored but unused.
- `geotransform2mapinfo` and `mapinfo2geotransform` are taken as exact inverses.
  A map info is modelled as its geotransform and projection.
- `warnings.warn` calls are returned as lists of `Warning` values.
- `DeShifter.Deshifter.ShiftOrigin`: when no updated map info is given,
  `updated_gt` and `shift_gt` are the same list object in the source. The
  model keeps two values. Assigning a list's entries to themselves changes
  nothing, so the outcome is the same.
- `GridPolicy.GetOutGrid`: requires the reference grid to be 2×2, as the
  co-registration results always deliver it. The `ref_grid` indexing errors
  for other shapes are not modelled. A target grid is taken as given; its
  axes are only checked by `Configure` (`GridAxisTooShort`).
- The `isinstance` checks of `_get_out_grid` are reduced to the
  `GsdArg`/`Grid` types. A string or float `out_gsd` cannot be expressed.
- `nodata=None` passed explicitly is the same as not passing `nodata`. The
  source would keep None, while the model falls back to the image's nodata.
- `Geo.Image`: `xgsd` and `ygsd` are fields of their own. In a GeoArray they
  derive from the geotransform (`gt[1]` and the absolute value of `gt[5]`).
  The model does not tie them together, so its statements hold for any pixel
  sizes, including ones that disagree with `gt`.
- `im2shift` given as a path is the same as a GeoArray already read.
- `arosics/__init__.py` holds only package metadata and is not part of this
  model.
- The time taken and the `CPUs` count are passed along but have no effect
  here.

=== FILE: alignability.dfy ===
/**
 * DESHIFTER._grids_alignable: two pixel sizes are alignable on an axis when the
 * larger is an exact multiple of the smaller, and the grids are alignable when
 * both axes are. Whether `max % min == 0` does not depend on the sign convention
 * of `%` (Python floors, Dafny is Euclidean): both are zero exactly when the
 * divisor divides the dividend, so signed pixel steps are modelled exactly.
 */
module Alignability {
  import opened Geo

  /** Multiplication as a function, so that quantifiers over the factor have a trigger. */
  function Times(k: int, d: int): int { k * d }

  /** n lies on the grid of pitch d through 0. */
  ghost predicate IsMultipleOf(n: int, d: int) {
    exists k :: n == Times(k, d)
  }

  /** The axis test does not raise ZeroDivisionError. */
  predicate AxisDefined(a: int, b: int) { Min(a, b) != 0 }

  /** The lambda `is_alignable` of the source. */
  predicate AxisAlignable(a: int, b: int)
    requires AxisDefined(a, b)
  {
    Max(a, b) % Min(a, b) == 0
  }

  /** The call raises ZeroDivisionError: the x test divides by zero, or the x test
      passes and the y test divides by zero (`or` short-circuits on a failed x test). */
  predicate CheckRaises(inX: int, inY: int, outX: int, outY: int)
    // only a zero size can raise, and an x pair whose smaller size is zero always does
    ensures CheckRaises(inX, inY, outX, outY) ==> inX == 0 || outX == 0 || inY == 0 || outY == 0
    ensures !AxisDefined(inX, outX) ==> CheckRaises(inX, inY, outX, outY)
    // a failed x test short-circuits: the y sizes are never divided by
    ensures AxisDefined(inX, outX) && !AxisAlignable(inX, outX) ==> !CheckRaises(inX, inY, outX, outY)
  {
    !AxisDefined(inX, outX) || (AxisAlignable(inX, outX) && !AxisDefined(inY, outY))
  }

  /** Verdict of _grids_alignable together with the warnings it emits. */
  datatype Alignment = Alignment(ok: bool, warnings: seq<Warning>)

  function GridsAlignable(inX: int, inY: int, outX: int, outY: int): (r: Alignment)
    requires !CheckRaises(inX, inY, outX, outY)
    ensures r.ok <==> IsMultipleOf(Max(inX, outX), Min(inX, outX))
                      && IsMultipleOf(Max(inY, outY), Min(inY, outY))
    ensures r.warnings == if r.ok then [] else [NotAlignable(inX, inY, outX, outY)]
  {
    AlignableIffMultiple(inX, outX);
    if !AxisAlignable(inX, outX) then Alignment(false, [NotAlignable(inX, inY, outX, outY)])
    else
      AlignableIffMultiple(inY, outY);
      if AxisAlignable(inY, outY) then Alignment(true, [])
      else Alignment(false, [NotAlignable(inX, inY, outX, outY)])
  }

  /** A nonzero whole multiple of m is at least as large as m. */
  lemma MultipleAtLeastPitch(d: int, m: int)
    requires m != 0
    ensures d == 0 || Abs(d * m) >= Abs(m)
  {
  }

  /** (k * m) % m == 0, from the uniqueness of Euclidean division. */
  lemma {:induction false} MultipleModZero(k: int, m: int)
    requires m != 0
    ensures Times(k, m) % m == 0
  {
    var n := k * m;
    var q, r := n / m, n % m;
    assert n == q * m + r && 0 <= r < Abs(m);
    assert r == (k - q) * m;
    MultipleAtLeastPitch(k - q, m);
  }

  /** The modulo test says exactly that the larger size is a whole multiple of
      the smaller one, i.e. every line of the coarser grid is a line of the finer one. */
  lemma {:induction false} AlignableIffMultiple(a: int, b: int)
    requires AxisDefined(a, b)
    ensures AxisAlignable(a, b) <==> IsMultipleOf(Max(a, b), Min(a, b))
  {
    var hi, lo := Max(a, b), Min(a, b);
    if hi % lo == 0 {
      assert hi == Times(hi / lo, lo);
    }
    if IsMultipleOf(hi, lo) {
      var k :| hi == Times(k, lo);
      MultipleModZero(k, lo);
    }
  }

  /** The verdict does not depend on which grid is called input and which output. */
  lemma GridsAlignableSymmetric(inX: int, inY: int, outX: int, outY: int)
    ensures CheckRaises(inX, inY, outX, outY) == CheckRaises(outX, outY, inX, inY)
    ensures !CheckRaises(inX, inY, outX, outY) ==>
              GridsAlignable(inX, inY, outX, outY).ok == GridsAlignable(outX, outY, inX, inY).ok
  {
  }

  /** A zero x size raises only when it is the smaller one: 0 beside -10 gives
      max 0 and min -10, and 0 % -10 == 0 divides by -10, not by zero. */
  lemma ZeroBesideNegativeDoesNotRaise()
    ensures !CheckRaises(0, 1, -10, 1) && CheckRaises(0, 1, 10, 1)
  {
  }

  /** A grid is always alignable with a grid of the same nonzero pixel sizes. */
  lemma GridsAlignableReflexive(x: int, y: int)
    requires x != 0 && y != 0
    ensures !CheckRaises(x, y, x, y) && GridsAlignable(x, y, x, y).ok
  {
  }

  /**
   * A reference y-grid in north-up order (y1 = y0 - ygsd, as the grids built by
   * _get_out_grid are) has a NEGATIVE signed step. Tested against a positive image
   * y-size, the larger operand is always the image size, so the axis is alignable
   * only when the reference size divides the image size: a reference coarser than
   * the image, e.g. 30 against 10, is judged not alignable.
   */
  lemma {:induction false} NorthUpReferenceStep(iy: int, ry: int)
    requires iy > 0 && ry > 0
    ensures AxisDefined(iy, -ry)
    ensures AxisAlignable(iy, -ry) <==> IsMultipleOf(iy, ry)
  {
    AlignableIffMultiple(iy, -ry);
    assert Max(iy, -ry) == iy && Min(iy, -ry) == -ry;
    if IsMultipleOf(iy, -ry) {
      var k :| iy == Times(k, -ry);
      assert iy == Times(-k, ry);
    }
    if IsMultipleOf(iy, ry) {
      var k :| iy == Times(k, ry);
      assert iy == Times(-k, -ry);
    }
  }

  /** The concrete case: image pixel 10, north-up reference pixel 30. */
  lemma CoarserNorthUpReferenceNotAlignable()
    ensures !CheckRaises(10, 10, 30, -30)
    ensures !GridsAlignable(10, 10, 30, -30).ok
    ensures GridsAlignable(10, 10, 30, 30).ok
  {
  }
}

=== FILE: deshifter.dfy ===
/**
 * The DESHIFTER class: configuration and validation (__init__), the
 * shift-correction state machine (correct_shifts) and the result record
 * (deshift_results). The object's mutable fields are a `class`; the pure
 * function `Run` specifies what one call of CorrectShifts does to them.
 * Line references such as `:199` are to components/DeShifter.py.
 */
module DeShifter {
  import opened Wrappers
  import opened Geo
  import opened Alignability
  import opened GridPolicy
  import opened OutExtent

  /** _dict_rspAlg_rsp_Int: resampling algorithm names and their GDAL codes. */
  const ResampCodes: map<string, int> :=
    map["nearest" := 0, "bilinear" := 1, "cubic" := 2, "cubic_spline" := 3, "lanczos" := 4,
        "average" := 5, "mode" := 6, "max" := 7, "min" := 8, "med" := 9, "q1" := 10, "q2" := 11]

  /** The twelve algorithm names carry the codes 0 to 11, one each. */
  lemma ResampCodesAreZeroToEleven()
    ensures forall name :: name in ResampCodes ==>
              0 <= ResampCodes[name] < 12 && ResampName(ResampCodes[name]) == name
    ensures forall code :: 0 <= code < 12 ==>
              ResampName(code) in ResampCodes && ResampCodes[ResampName(code)] == code
  {
  }

  /** The GDAL code of a supported algorithm name. */
  function ResampCode(name: string): int
    requires name in ResampCodes
  {
    ResampCodes[name]
  }

  /** The name that carries each code: the inverse of ResampCodes. */
  function ResampName(code: int): string {
    match code
    case 0 => "nearest"
    case 1 => "bilinear"
    case 2 => "cubic"
    case 3 => "cubic_spline"
    case 4 => "lanczos"
    case 5 => "average"
    case 6 => "mode"
    case 7 => "max"
    case 8 => "min"
    case 9 => "med"
    case 10 => "q1"
    case _ => "q2"
  }

  /** The two warping strategies. */
  datatype WarpAlg = GdalCmd | GdalLib

  function ParseWarpAlg(name: string): (w: Option<WarpAlg>)
    ensures w.Some? <==> name in {"GDAL_cmd", "GDAL_lib"}
  {
    if name == "GDAL_cmd" then Some(GdalCmd)
    else if name == "GDAL_lib" then Some(GdalLib)
    else None
  }

  /** The keyword arguments of the constructor; None stands for a keyword not given. */
  datatype Options = Options(
    pathOut: Option<string>,
    fmtOut: string,
    band2process: Option<int>,
    nodata: Option<int>,
    alignGrids: bool,
    tempAsEnvi: bool,
    resampAlg: string,
    warpAlg: string,
    clipToExtent: bool,
    clipExtent: Option<Extent>,
    tempDir: string,
    cpus: Option<int>,
    verbose: bool,
    quiet: bool,
    outGsd: Option<GsdArg>,
    matchGsd: bool,
    targetXyGrid: Option<Grid>)

  /** The keyword defaults of :82-96 and :115-117. */
  function DefaultOptions(): (o: Options)
    // no grid option is set, and both names are accepted ones
    ensures o.targetXyGrid.None? && o.outGsd.None? && !o.matchGsd && !o.alignGrids
    ensures o.resampAlg in ResampCodes && ResampCode(o.resampAlg) == 2 && ParseWarpAlg(o.warpAlg) == Some(GdalLib)
    // clip to the footprint; no band, nodata, CPU count or output path given; neither verbose nor quiet
    ensures o.clipToExtent && o.clipExtent.None? && o.band2process.None? && o.nodata.None?
    ensures o.cpus.None? && o.pathOut.None? && !o.verbose && !o.quiet && !o.tempAsEnvi && o.fmtOut == "ENVI"
  {
    Options(None, "ENVI", None, None, false, false, "cubic", "GDAL_lib", true, None,
            "/dev/shm/", None, false, false, None, false, None)
  }

  /** The co-registration results the constructor reads. `updatedMapInfo` is None
      when the entry is None or empty. */
  datatype CoregResults = CoregResults(
    gcpList: Option<seq<Gcp>>,
    updatedMapInfo: Option<MapInfo>,
    originalMapInfo: MapInfo,
    refGt: GeoTransform,
    refGrid: Grid,
    refPrj: Projection)

  /** Everything __init__ fixes once: inputs, resolved options, output grid and pixel size. */
  datatype Config = Config(
    im: Image,
    coreg: CoregResults,
    opts: Options,
    nodata: Option<int>,
    quiet: bool,
    outFmt: string,
    warpAlg: WarpAlg,
    outGrid: Grid,
    outGsd: (int, int),
    warnings: seq<Warning>)

  /** What a configuration that passed __init__ satisfies. */
  predicate ConfigValid(cfg: Config) {
    && AxesIndexable(cfg.outGrid)
    && cfg.opts.resampAlg in ResampCodes
    && cfg.outGsd == (Abs(Steps(cfg.outGrid).0), Abs(Steps(cfg.outGrid).1))
  }

  /** The output grid step of __init__ (:97). */
  function OutGridOf(im: Image, coreg: CoregResults, opts: Options): Result<GridChoice, ConfigError>
    requires IsTwoByTwo(coreg.refGrid)
  {
    GetOutGrid(opts.alignGrids, im, coreg.refGt, coreg.refGrid, opts.outGsd, opts.matchGsd, opts.targetXyGrid)
  }

  /** __init__ without its side effects: the configuration, or the error it raises. */
  function Configure(im: Image, coreg: CoregResults, opts: Options): (r: Result<Config, ConfigError>)
    requires IsTwoByTwo(coreg.refGrid)
    // construction succeeds only for a known resampling algorithm and warping strategy
    ensures r.Success? ==> opts.resampAlg in ResampCodes && opts.warpAlg in {"GDAL_cmd", "GDAL_lib"}
    ensures r.Success? ==> ConfigValid(r.value) && OutGridOf(im, coreg, opts).Success? &&
                           r.value.outGrid == OutGridOf(im, coreg, opts).value.grid &&
                           r.value.warnings == OutGridOf(im, coreg, opts).value.warnings
    // grid errors come first; with a usable grid, only the two name checks can fail
    ensures OutGridOf(im, coreg, opts).Failure? ==> r == Failure(OutGridOf(im, coreg, opts).error)
    ensures OutGridOf(im, coreg, opts).Success? && AxesIndexable(OutGridOf(im, coreg, opts).value.grid) ==>
              (r.Success? <==> opts.resampAlg in ResampCodes && opts.warpAlg in {"GDAL_cmd", "GDAL_lib"})
    // a target axis of fewer than two samples raises IndexError at :98, before the name checks
    ensures OutGridOf(im, coreg, opts).Success? && !AxesIndexable(OutGridOf(im, coreg, opts).value.grid) ==>
              r == Failure(GridAxisTooShort)
    // the resampling algorithm is checked (:101) before the warping strategy (:103)
    ensures OutGridOf(im, coreg, opts).Success? && AxesIndexable(OutGridOf(im, coreg, opts).value.grid) ==>
              (opts.resampAlg !in ResampCodes ==> r == Failure(UnsupportedResampAlg(opts.resampAlg))) &&
              (opts.resampAlg in ResampCodes && opts.warpAlg !in {"GDAL_cmd", "GDAL_lib"} ==>
                 r == Failure(UnsupportedWarpAlg(opts.warpAlg)))
    // an explicit pair of pixel sizes becomes out_gsd (by absolute value)
    ensures r.Success? && opts.targetXyGrid.None? && opts.outGsd.Some? ==>
              r.value.outGsd == (Abs(opts.outGsd.value.items[0]), Abs(opts.outGsd.value.items[1]))
    // the inputs are kept, and the warping name selects the path correct_shifts takes
    ensures r.Success? ==>
              r.value.im == im && r.value.coreg == coreg && r.value.opts == opts &&
              r.value.warpAlg == (if opts.warpAlg == "GDAL_cmd" then GdalCmd else GdalLib) &&
              r.value.outFmt == (if opts.tempAsEnvi then "ENVI" else "VRT")
    // quiet mode is off in verbose mode; nodata defaults to the image's
    ensures r.Success? ==> r.value.quiet == (opts.quiet && !opts.verbose) &&
                           r.value.nodata == (if opts.nodata.Some? then opts.nodata else im.nodata)
  {
    var nodata := if opts.nodata.Some? then opts.nodata else im.nodata;
    var quiet := if !opts.verbose then opts.quiet else false;
    var outFmt := if !opts.tempAsEnvi then "VRT" else "ENVI";
    match OutGridOf(im, coreg, opts)
    case Failure(e) => Failure(e)
    case Success(choice) =>
      if !AxesIndexable(choice.grid) then Failure(GridAxisTooShort)
      else
        var (dx, dy) := Steps(choice.grid);
        if opts.resampAlg !in ResampCodes then Failure(UnsupportedResampAlg(opts.resampAlg))
        else match ParseWarpAlg(opts.warpAlg)
          case None => Failure(UnsupportedWarpAlg(opts.warpAlg))
          case Some(w) =>
            Success(Config(im, coreg, opts, nodata, quiet, outFmt, w, choice.grid,
                           (Abs(dx), Abs(dy)), choice.warnings))
  }

  /** Errors raised by correct_shifts. */
  datatype RunError = ResamplingFailed

  /** The fields of the object that correct_shifts and _get_out_extent update. */
  datatype RunState = RunState(
    shiftGt: GeoTransform,
    shiftPrj: Projection,
    updatedGt: GeoTransform,
    updatedMapInfo: MapInfo,
    updatedProjection: Projection,
    clipExtent: Option<Extent>,
    isShifted: bool,
    isResampled: bool,
    trackedErrors: seq<RunError>,
    arrShifted: Option<Pixels>,
    geoArrayShifted: Option<GeoArray>)

  /** The fields as __init__ leaves them (:69-79, :92, :106-110). */
  function InitialState(cfg: Config): (s: RunState)
    // updated_gt is always the geotransform of updated_map_info
    ensures s.updatedGt == s.updatedMapInfo.gt
    ensures cfg.coreg.updatedMapInfo.None? ==> s.updatedGt == s.shiftGt == cfg.im.gt
    // the co-registration's updated map info, when given, is the shift to apply
    ensures cfg.coreg.updatedMapInfo.Some? ==>
              s.updatedMapInfo == cfg.coreg.updatedMapInfo.value && s.updatedGt == cfg.coreg.updatedMapInfo.value.gt
    ensures cfg.coreg.updatedMapInfo.None? ==> s.updatedMapInfo == MapInfo(cfg.im.gt, cfg.im.prj)
    ensures s.shiftGt == cfg.im.gt && s.shiftPrj == cfg.im.prj && s.updatedProjection == cfg.coreg.refPrj
    ensures !s.isShifted && !s.isResampled && s.trackedErrors == []
    ensures s.arrShifted.None? && s.geoArrayShifted.None? && s.clipExtent == cfg.opts.clipExtent
  {
    var mapInfo := if cfg.coreg.updatedMapInfo.Some? then cfg.coreg.updatedMapInfo.value
                   else MapInfo(cfg.im.gt, cfg.im.prj);
    var updatedGt := if cfg.coreg.updatedMapInfo.Some? then mapInfo.gt else cfg.im.gt;
    RunState(cfg.im.gt, cfg.im.prj, updatedGt, mapInfo, cfg.coreg.refPrj, cfg.opts.clipExtent,
             false, false, [], None, None)
  }

  /** The record returned by deshift_results (:305-315). */
  datatype ResultRecord = ResultRecord(
    band: Option<int>,
    isShifted: bool,
    isResampled: bool,
    updatedMapInfo: MapInfo,
    updatedGeotransform: GeoTransform,
    updatedProjection: Projection,
    arrShifted: Option<Pixels>,
    geoArrayShifted: Option<GeoArray>)

  /** deshift_results: note that 'updated geotransform' is shift_gt, not updated_gt. */
  function Results(band: Option<int>, s: RunState): (r: ResultRecord)
    ensures r.updatedGeotransform == s.shiftGt
    ensures r.updatedMapInfo == s.updatedMapInfo && r.updatedProjection == s.updatedProjection
    ensures r.isShifted == s.isShifted && r.isResampled == s.isResampled && r.band == band
    ensures r.arrShifted == s.arrShifted && r.geoArrayShifted == s.geoArrayShifted
  {
    ResultRecord(band, s.isShifted, s.isResampled, s.updatedMapInfo, s.shiftGt,
                 s.updatedProjection, s.arrShifted, s.geoArrayShifted)
  }

  /** The arguments of warp_ndarray (:277-287); polynomialOrder and options are
      always None and are not recorded. */
  datatype WarpCall = WarpCall(
    inArr: Pixels,
    srcGt: GeoTransform,
    srcPrj: Projection,
    dstPrj: Projection,
    rspAlg: int,
    inNodata: Option<int>,
    outNodata: Option<int>,
    outGsd: (int, int),
    outBounds: Extent,
    gcpList: Option<seq<Gcp>>,
    cpus: Option<int>,
    quiet: bool)

  /** The parameters of the gdalwarp command line (:235-239), and the band read back. */
  datatype WarpCommand = WarpCommand(
    rspAlg: string,
    xgsd: int,
    ygsd: int,
    dstPrj: Projection,
    outFmt: string,
    srcPath: string,
    nodata: Option<int>,
    extent: Extent,
    band2process: Option<int>)

  /** The exit code, whether the output file exists, and what was read from it. */
  datatype CommandOutcome = CommandOutcome(exitCode: int, outputExists: bool, result: GeoArray)

  /** The collaborators correct_shifts calls: prj_equal, is_coord_grid_equal,
      find_nearest, GeoArray band indexing, GeoArray.get_mapPos, warp_ndarray, and
      the gdalwarp run with the reading of its output. */
  datatype Env = Env(
    prjEqual: (Projection, Projection) -> bool,
    coordGridEqual: (GeoTransform, seq<int>, seq<int>) -> bool,
    snap: (seq<int>, int, RoundAlg) -> int,
    selectBand: (Pixels, int) -> Pixels,
    getMapPos: (GeoArray, Extent, Projection, Option<int>) -> GeoArray,
    warpNdarray: WarpCall -> GeoArray,
    gdalwarp: WarpCommand -> CommandOutcome)

  /** The guard at :199, negated: true when the resampling path is taken. */
  function NeedsResampling(cfg: Config, s: RunState, env: Env): (r: bool)
    requires AxesIndexable(cfg.outGrid)
    // align_grids, or a projection differing from the reference, always forces resampling
    ensures cfg.opts.alignGrids ==> r
    ensures !env.prjEqual(cfg.coreg.refPrj, s.shiftPrj) ==> r
    // so does a geotransform off the output grid; with none of the three, nothing is resampled
    ensures !env.coordGridEqual(s.shiftGt, cfg.outGrid[0], cfg.outGrid[1]) ==> r
    ensures (!cfg.opts.alignGrids && env.prjEqual(cfg.coreg.refPrj, s.shiftPrj) &&
             env.coordGridEqual(s.shiftGt, cfg.outGrid[0], cfg.outGrid[1])) ==> !r
  {
    !(env.prjEqual(cfg.coreg.refPrj, s.shiftPrj)
      && env.coordGridEqual(s.shiftGt, cfg.outGrid[0], cfg.outGrid[1])
      && !cfg.opts.alignGrids)
  }

  /** The clip extent _get_out_extent stores in the object. */
  function ChosenExtent(cfg: Config, s: RunState): Extent {
    ChooseClipExtent(cfg.opts.clipToExtent, s.clipExtent, cfg.im)
  }

  /** The snapped extent _get_out_extent returns. */
  function SnappedExtent(cfg: Config, s: RunState, env: Env): Extent
    requires AxesIndexable(cfg.outGrid)
  {
    SnapExtent(cfg.outGrid, ChosenExtent(cfg, s), env.snap)
  }

  /** Python truthiness of the GCP list: None and an empty list both count as no GCPs. */
  predicate HasGcps(gcps: Option<seq<Gcp>>)
    ensures HasGcps(gcps) <==> exists g :: gcps.Some? && g in gcps.value
  {
    match gcps
    case None => false
    case Some(list) =>
      assert list != [] ==> list[0] in list;
      list != []
  }

  /** The in-place update at :272-273 of the geotransform handed to warp_ndarray. */
  function ApplyOriginShift(gt: GeoTransform, updated: GeoTransform, gcps: Option<seq<Gcp>>)
    : (r: GeoTransform)
    ensures r[0] == (if HasGcps(gcps) then gt[0] else updated[0])
    ensures r[3] == (if HasGcps(gcps) then gt[3] else updated[3])
    ensures forall i :: 0 <= i < 6 && i != 0 && i != 3 ==> r[i] == gt[i]
  {
    if HasGcps(gcps) then gt else gt[0 := updated[0]][3 := updated[3]]
  }

  /** The array handed to warp_ndarray (:271): one band when band2process is a
      nonzero index, the whole array otherwise. */
  function InputArray(cfg: Config, env: Env): (a: Pixels)
    // None and band 0 are both falsy in Python: the whole array is passed
    ensures cfg.opts.band2process == None || cfg.opts.band2process == Some(0) ==> a == cfg.im.arr
    ensures forall b :: cfg.opts.band2process == Some(b) && b != 0 ==> a == env.selectBand(cfg.im.arr, b)
  {
    if cfg.opts.band2process.Some? && cfg.opts.band2process.value != 0
    then env.selectBand(cfg.im.arr, cfg.opts.band2process.value)
    else cfg.im.arr
  }

  /** The warp_ndarray call of the GDAL_lib path. */
  function LibWarpCall(cfg: Config, s: RunState, env: Env): (call: WarpCall)
    requires ConfigValid(cfg)
    // the origin is the updated one unless a non-empty GCP list is given; nothing else moves
    ensures call.srcGt[0] == (if HasGcps(cfg.coreg.gcpList) then s.shiftGt[0] else s.updatedGt[0])
    ensures call.srcGt[3] == (if HasGcps(cfg.coreg.gcpList) then s.shiftGt[3] else s.updatedGt[3])
    ensures forall i :: 0 <= i < 6 && i != 0 && i != 3 ==> call.srcGt[i] == s.shiftGt[i]
    ensures call.gcpList == cfg.coreg.gcpList && call.srcPrj == s.shiftPrj && call.dstPrj == cfg.coreg.refPrj
    ensures 0 <= call.rspAlg < 12 && ResampName(call.rspAlg) == cfg.opts.resampAlg
    ensures call.inNodata == call.outNodata == cfg.nodata
    ensures call.outGsd == cfg.outGsd && call.outBounds == SnappedExtent(cfg, s, env)
    ensures call.inArr == InputArray(cfg, env) && call.cpus == cfg.opts.cpus && call.quiet == cfg.quiet
  {
    ResampCodesAreZeroToEleven();
    WarpCall(InputArray(cfg, env), ApplyOriginShift(s.shiftGt, s.updatedGt, cfg.coreg.gcpList),
             s.shiftPrj, cfg.coreg.refPrj, ResampCode(cfg.opts.resampAlg), cfg.nodata, cfg.nodata,
             cfg.outGsd, SnappedExtent(cfg, s, env), cfg.coreg.gcpList, cfg.opts.cpus, cfg.quiet)
  }

  /** The gdalwarp command of the GDAL_cmd path. */
  function CmdCall(cfg: Config, s: RunState, env: Env): (cmd: WarpCommand)
    requires ConfigValid(cfg)
    // a supported algorithm name, the nonnegative output pixel sizes and the reference projection
    ensures cmd.rspAlg == cfg.opts.resampAlg && cmd.rspAlg in ResampCodes && cmd.xgsd >= 0 && cmd.ygsd >= 0
    ensures (cmd.xgsd, cmd.ygsd) == cfg.outGsd && cmd.dstPrj == cfg.coreg.refPrj
    // the image file is warped to the snapped extent, with one nodata value for source and target
    ensures cmd.srcPath == cfg.im.filePath && cmd.extent == SnappedExtent(cfg, s, env) && cmd.nodata == cfg.nodata
    ensures cmd.outFmt == cfg.outFmt && cmd.band2process == cfg.opts.band2process
  {
    WarpCommand(cfg.opts.resampAlg, cfg.outGsd.0, cfg.outGsd.1, cfg.coreg.refPrj, cfg.outFmt,
                cfg.im.filePath, cfg.nodata, SnappedExtent(cfg, s, env), cfg.opts.band2process)
  }

  /** The no-resampling path (:206-221). */
  function NoResamplePath(cfg: Config, s: RunState, env: Env): (s1: RunState)
    requires ConfigValid(cfg)
    ensures s1.isShifted && !s1.isResampled && s1.trackedErrors == s.trackedErrors
    // shift_gt is never touched here, and the returned GeoArray carries it
    ensures s1.shiftGt == s.shiftGt && s1.shiftPrj == s.shiftPrj
    ensures s1.geoArrayShifted.Some? && s1.geoArrayShifted.value.gt == s.shiftGt
    ensures s1.arrShifted.Some? && s1.geoArrayShifted.value.arr == s1.arrShifted.value
    // without clipping the input array is the output and the updated georeferencing stays
    ensures !cfg.opts.clipToExtent ==>
              s1.arrShifted == Some(cfg.im.arr) && s1.updatedGt == s.updatedGt &&
              s1.updatedMapInfo == s.updatedMapInfo && s1.updatedProjection == s.updatedProjection
    // with clipping updated_gt and updated_map_info stay consistent
    ensures cfg.opts.clipToExtent ==> s1.updatedMapInfo == MapInfo(s1.updatedGt, s1.updatedProjection)
  {
    var s1 := s.(isShifted := true, isResampled := false, clipExtent := Some(ChosenExtent(cfg, s)));
    if cfg.opts.clipToExtent then
      var clipped := env.getMapPos(GeoArray(cfg.im.arr, s.updatedGt, s.shiftPrj),
                                   SnappedExtent(cfg, s, env), s.shiftPrj, cfg.nodata);
      s1.(arrShifted := Some(clipped.arr), updatedGt := clipped.gt, updatedProjection := clipped.prj,
          updatedMapInfo := MapInfo(clipped.gt, clipped.prj),
          geoArrayShifted := Some(GeoArray(clipped.arr, s.shiftGt, clipped.prj)))
    else
      s1.(arrShifted := Some(cfg.im.arr),
          geoArrayShifted := Some(GeoArray(cfg.im.arr, s.shiftGt, s.updatedProjection)))
  }

  /** The GDAL_lib resampling path (:271-295). */
  function LibPath(cfg: Config, s: RunState, env: Env): (s1: RunState)
    requires ConfigValid(cfg)
    ensures s1.isShifted && s1.isResampled && s1.trackedErrors == s.trackedErrors
    // the engine's output becomes shift_gt, updated_map_info and the returned GeoArray;
    // updated_gt keeps its old value
    ensures var out := env.warpNdarray(LibWarpCall(cfg, s, env));
            s1.shiftGt == out.gt && s1.updatedMapInfo == MapInfo(out.gt, out.prj) &&
            s1.updatedProjection == out.prj && s1.arrShifted == Some(out.arr) &&
            s1.geoArrayShifted == Some(out) && s1.updatedGt == s.updatedGt
    // shift_prj is not updated, so the next guard compares the old projection
    ensures s1.shiftPrj == s.shiftPrj
  {
    var out := env.warpNdarray(LibWarpCall(cfg, s, env));
    s.(clipExtent := Some(ChosenExtent(cfg, s)), updatedProjection := out.prj,
       arrShifted := Some(out.arr), updatedMapInfo := MapInfo(out.gt, out.prj), shiftGt := out.gt,
       geoArrayShifted := Some(GeoArray(out.arr, out.gt, out.prj)), isShifted := true, isResampled := true)
  }

  /** The GDAL_cmd resampling path (:232-265), with the command and file reads as one call. */
  function CmdPath(cfg: Config, s: RunState, env: Env): (out: (RunState, Result<ResultRecord, RunError>))
    requires ConfigValid(cfg)
    // success is any exit code other than 1 together with an existing output file
    ensures var o := env.gdalwarp(CmdCall(cfg, s, env));
            out.1.Success? <==> o.exitCode != 1 && o.outputExists
    ensures out.1.Success? ==>
              out.0.isShifted && out.0.isResampled && out.1.value == Results(cfg.opts.band2process, out.0) &&
              out.0.trackedErrors == s.trackedErrors && out.0.updatedProjection == s.updatedProjection
    // on success the georeferencing and array read back from the output are adopted
    ensures out.1.Success? ==>
              var res := env.gdalwarp(CmdCall(cfg, s, env)).result;
              out.0.shiftGt == res.gt && out.0.shiftPrj == res.prj &&
              out.0.updatedMapInfo == MapInfo(res.gt, res.prj) && out.0.arrShifted == Some(res.arr) &&
              out.0.geoArrayShifted == Some(res) && out.0.updatedGt == s.updatedGt
    // a failure is recorded before it is raised, and the flags stay as they were
    ensures out.1.Failure? ==>
              out.1.error == ResamplingFailed && out.0.trackedErrors == s.trackedErrors + [ResamplingFailed] &&
              out.0.isShifted == s.isShifted && out.0.isResampled == s.isResampled
    // and nothing else changes but the stored extent
    ensures out.1.Failure? ==>
              out.0 == s.(clipExtent := Some(ChosenExtent(cfg, s)),
                          trackedErrors := s.trackedErrors + [ResamplingFailed])
  {
    var s1 := s.(clipExtent := Some(ChosenExtent(cfg, s)));
    var outcome := env.gdalwarp(CmdCall(cfg, s, env));
    if outcome.exitCode != 1 && outcome.outputExists then
      var res := outcome.result;
      var s2 := s1.(shiftGt := res.gt, shiftPrj := res.prj, updatedMapInfo := MapInfo(res.gt, res.prj),
                    arrShifted := Some(res.arr), geoArrayShifted := Some(res),
                    isShifted := true, isResampled := true);
      (s2, Success(Results(cfg.opts.band2process, s2)))
    else
      (s1.(trackedErrors := s.trackedErrors + [ResamplingFailed]), Failure(ResamplingFailed))
  }

  /** correct_shifts: the new state of the object and what the call returns or raises. */
  function Run(cfg: Config, s: RunState, env: Env): (out: (RunState, Result<ResultRecord, RunError>))
    requires ConfigValid(cfg)
    // on success is_shifted is set, and is_resampled exactly when the guard at :199 resamples
    ensures out.1.Success? ==>
              out.0.isShifted && (out.0.isResampled <==> NeedsResampling(cfg, s, env)) &&
              out.1.value == Results(cfg.opts.band2process, out.0)
    // the guard and the warping strategy select the path
    ensures !NeedsResampling(cfg, s, env) ==> out.0 == NoResamplePath(cfg, s, env)
    ensures NeedsResampling(cfg, s, env) && cfg.warpAlg == GdalCmd ==> out == CmdPath(cfg, s, env)
    ensures NeedsResampling(cfg, s, env) && cfg.warpAlg == GdalLib ==> out.0 == LibPath(cfg, s, env)
    // only the GDAL_cmd path can fail
    ensures out.1.Failure? ==> NeedsResampling(cfg, s, env) && cfg.warpAlg == GdalCmd
    ensures !NeedsResampling(cfg, s, env) || cfg.warpAlg == GdalLib ==> out.1.Success?
    // the chosen clip extent is stored on every path
    ensures out.0.clipExtent == Some(ChosenExtent(cfg, s))
  {
    if !NeedsResampling(cfg, s, env) then
      var s1 := NoResamplePath(cfg, s, env);
      (s1, Success(Results(cfg.opts.band2process, s1)))
    else if cfg.warpAlg == GdalCmd then CmdPath(cfg, s, env)
    else
      var s1 := LibPath(cfg, s, env);
      (s1, Success(Results(cfg.opts.band2process, s1)))
  }

  class Deshifter {
    const cfg: Config
    var shiftGt: GeoTransform
    var shiftPrj: Projection
    var updatedGt: GeoTransform
    var updatedMapInfo: MapInfo
    var updatedProjection: Projection
    var clipExtent: Option<Extent>
    var isShifted: bool
    var isResampled: bool
    var trackedErrors: seq<RunError>
    var arrShifted: Option<Pixels>
    var geoArrayShifted: Option<GeoArray>

    /** The mutable fields as one value. */
    function State(): RunState
      reads this
    {
      RunState(shiftGt, shiftPrj, updatedGt, updatedMapInfo, updatedProjection, clipExtent,
               isShifted, isResampled, trackedErrors, arrShifted, geoArrayShifted)
    }

    /** The field assignments of __init__, for a configuration that passed its checks. */
    constructor (cfg: Config)
      requires ConfigValid(cfg)
      ensures this.cfg == cfg && State() == InitialState(cfg)
    {
      this.cfg := cfg;
      shiftPrj := cfg.im.prj;
      shiftGt := cfg.im.gt;
      if cfg.coreg.updatedMapInfo.Some? {
        updatedMapInfo := cfg.coreg.updatedMapInfo.value;
        updatedGt := cfg.coreg.updatedMapInfo.value.gt;
      } else {
        updatedMapInfo := MapInfo(cfg.im.gt, cfg.im.prj);
        updatedGt := cfg.im.gt;
      }
      updatedProjection := cfg.coreg.refPrj;
      clipExtent := cfg.opts.clipExtent;
      isShifted := false;
      isResampled := false;
      trackedErrors := [];
      arrShifted := None;
      geoArrayShifted := None;
    }

    /** DESHIFTER(im2shift, coreg_results, **kwargs): a new object, or the error __init__ raises. */
    static method Create(im: Image, coreg: CoregResults, opts: Options) returns (r: Result<Deshifter, ConfigError>)
      requires IsTwoByTwo(coreg.refGrid)
      ensures r.Success? <==> Configure(im, coreg, opts).Success?
      ensures r.Success? ==> fresh(r.value) && r.value.cfg == Configure(im, coreg, opts).value &&
                             r.value.State() == InitialState(r.value.cfg)
      ensures r.Failure? ==> r.error == Configure(im, coreg, opts).error
    {
      match Configure(im, coreg, opts)
      case Failure(e) =>
        r := Failure(e);
      case Success(cfg) =>
        var d := new Deshifter(cfg);
        r := Success(d);
    }

    /** _get_out_extent: stores the chosen clip extent and returns it snapped to the output grid. */
    method GetOutExtent(env: Env) returns (e: Extent)
      requires ConfigValid(cfg)
      modifies this`clipExtent
      ensures clipExtent == Some(ChooseClipExtent(cfg.opts.clipToExtent, old(clipExtent), cfg.im))
      ensures e == SnapExtent(cfg.outGrid, clipExtent.value, env.snap)
    {
      if cfg.opts.clipToExtent && clipExtent.None? {
        clipExtent := Some(cfg.im.footprintBounds);
      } else {
        var b := cfg.im.boxBoundsMap;
        clipExtent := Some(Extent(b.xmin, b.ymin, b.xmax, b.ymax));
      }
      var c := clipExtent.value;
      // ymax is snapped against the x axis out_grid[0], as in the source
      e := Extent(env.snap(cfg.outGrid[0], c.xmin, On), env.snap(cfg.outGrid[1], c.ymin, On),
                  env.snap(cfg.outGrid[0], c.xmax, Off), env.snap(cfg.outGrid[0], c.ymax, Off));
    }

    /** deshift_results. */
    function DeshiftResults(): (r: ResultRecord)
      reads this
      ensures r == Results(cfg.opts.band2process, State())
    {
      ResultRecord(cfg.opts.band2process, isShifted, isResampled, updatedMapInfo, shiftGt,
                   updatedProjection, arrShifted, geoArrayShifted)
    }

    /** correct_shifts: the guard at :199 picks one of three paths. */
    method CorrectShifts(env: Env) returns (r: Result<ResultRecord, RunError>)
      requires ConfigValid(cfg)
      modifies this
      ensures (State(), r) == Run(cfg, old(State()), env)
    {
      var equalPrj := env.prjEqual(cfg.coreg.refPrj, shiftPrj);
      if equalPrj && env.coordGridEqual(shiftGt, cfg.outGrid[0], cfg.outGrid[1]) && !cfg.opts.alignGrids {
        CorrectWithoutResampling(env);
        r := Success(DeshiftResults());
      } else if cfg.warpAlg == GdalCmd {
        r := ResampleWithCommand(env);
      } else {
        ResampleWithLibrary(env);
        r := Success(DeshiftResults());
      }
    }

    /** The no-resampling path: re-anchor, and clip when cliptoextent is set. */
    method CorrectWithoutResampling(env: Env)
      requires ConfigValid(cfg)
      modifies this
      ensures State() == NoResamplePath(cfg, old(State()), env)
    {
      isShifted := true;
      isResampled := false;
      var box := GetOutExtent(env);
      if cfg.opts.clipToExtent {
        var shifted := GeoArray(cfg.im.arr, updatedGt, shiftPrj);
        var clipped := env.getMapPos(shifted, box, shiftPrj, cfg.nodata);
        arrShifted := Some(clipped.arr);
        updatedGt := clipped.gt;
        updatedProjection := clipped.prj;
        updatedMapInfo := MapInfo(updatedGt, updatedProjection);
      } else {
        // the array stays the same; updated gt and projection come from the co-registration
        arrShifted := Some(cfg.im.arr);
      }
      geoArrayShifted := Some(GeoArray(arrShifted.value, shiftGt, updatedProjection));
    }

    /** The GDAL_cmd path; the command run and the reading of its output are env.gdalwarp. */
    method ResampleWithCommand(env: Env) returns (r: Result<ResultRecord, RunError>)
      requires ConfigValid(cfg)
      modifies this
      ensures (State(), r) == CmdPath(cfg, old(State()), env)
    {
      ghost var s0 := State();
      var box := GetOutExtent(env);
      var cmd := WarpCommand(cfg.opts.resampAlg, cfg.outGsd.0, cfg.outGsd.1, cfg.coreg.refPrj,
                             cfg.outFmt, cfg.im.filePath, cfg.nodata, box, cfg.opts.band2process);
      assert cmd == CmdCall(cfg, s0, env);
      ghost var s1 := State();
      var outcome := env.gdalwarp(cmd);
      if outcome.exitCode != 1 && outcome.outputExists {
        AdoptCommandOutput(outcome.result);
        r := Success(DeshiftResults());
      } else {
        trackedErrors := trackedErrors + [ResamplingFailed];
        r := Failure(ResamplingFailed);
        assert State() == s1.(trackedErrors := s0.trackedErrors + [ResamplingFailed]);
      }
    }

    /** :245-257: adopt the geotransform, projection and array read back from gdalwarp's output. */
    method AdoptCommandOutput(res: GeoArray)
      modifies this
      ensures State() == old(State()).(shiftGt := res.gt, shiftPrj := res.prj,
                                       updatedMapInfo := MapInfo(res.gt, res.prj),
                                       arrShifted := Some(res.arr), geoArrayShifted := Some(res),
                                       isShifted := true, isResampled := true)
    {
      shiftGt, shiftPrj := res.gt, res.prj;
      updatedMapInfo := MapInfo(shiftGt, shiftPrj);
      arrShifted := Some(res.arr);
      geoArrayShifted := Some(GeoArray(res.arr, shiftGt, shiftPrj));
      isShifted := true;
      isResampled := true;
    }

    /** :272-273: overwrite the origin of shift_gt in place unless GCPs are given. */
    method ShiftOrigin()
      modifies this`shiftGt
      ensures shiftGt == ApplyOriginShift(old(shiftGt), updatedGt, cfg.coreg.gcpList)
    {
      if !HasGcps(cfg.coreg.gcpList) {
        shiftGt := shiftGt[0 := updatedGt[0]][3 := updatedGt[3]];
      }
    }

    /** The GDAL_lib path: shift the origin unless GCPs are given, then warp. */
    method ResampleWithLibrary(env: Env)
      requires ConfigValid(cfg)
      modifies this
      ensures State() == LibPath(cfg, old(State()), env)
    {
      ghost var s0 := State();
      var call := PrepareWarp(env);
      var out := env.warpNdarray(call);
      AdoptWarpOutput(out);
      assert State() == LibPath(cfg, s0, env);
    }

    /** :271-282: select the input array, shift the origin and snap the extent. */
    method PrepareWarp(env: Env) returns (call: WarpCall)
      requires ConfigValid(cfg)
      modifies this`shiftGt, this`clipExtent
      ensures call == LibWarpCall(cfg, old(State()), env)
      ensures State() == old(State()).(shiftGt := call.srcGt,
                                       clipExtent := Some(ChosenExtent(cfg, old(State()))))
    {
      ghost var s0 := State();
      var inArr := if cfg.opts.band2process.Some? && cfg.opts.band2process.value != 0
                   then env.selectBand(cfg.im.arr, cfg.opts.band2process.value) else cfg.im.arr;
      ShiftOrigin();
      var box := GetOutExtent(env);
      assert box == SnappedExtent(cfg, s0, env);
      call := WarpCall(inArr, shiftGt, shiftPrj, cfg.coreg.refPrj,
                       ResampCode(cfg.opts.resampAlg), cfg.nodata, cfg.nodata,
                       cfg.outGsd, box, cfg.coreg.gcpList, cfg.opts.cpus, cfg.quiet);
    }

    /** :289-295: adopt the array, geotransform and projection warp_ndarray returned. */
    method AdoptWarpOutput(out: GeoArray)
      modifies this
      ensures State() == old(State()).(updatedProjection := out.prj, arrShifted := Some(out.arr),
                                       updatedMapInfo := MapInfo(out.gt, out.prj), shiftGt := out.gt,
                                       geoArrayShifted := Some(out), isShifted := true, isResampled := true)
    {
      updatedProjection := out.prj;
      arrShifted := Some(out.arr);
      updatedMapInfo := MapInfo(out.gt, out.prj);
      shiftGt := updatedMapInfo.gt;
      geoArrayShifted := Some(GeoArray(out.arr, shiftGt, updatedProjection));
      isShifted := true;
      isResampled := true;
    }
  }
}

=== FILE: deshifter_properties.dfy ===
/**
 * Properties of one correct_shifts call, stated over the specification `Run`
 * that Deshifter.CorrectShifts is proved to follow, and of the constants and
 * configuration of __init__.
 */
module DeShifterProperties {
  import opened Wrappers
  import opened Geo
  import opened GridPolicy
  import opened OutExtent
  import opened DeShifter

  /** The docstring lists 'q3', but the accepted name is 'q2': 'q3' is rejected. */
  lemma DocumentedQ3Rejected(im: Image, coreg: CoregResults)
    requires IsTwoByTwo(coreg.refGrid)
    ensures Configure(im, coreg, DefaultOptions().(resampAlg := "q3")).Failure?
  {
  }

  /** The keyword defaults always construct: no grid option, 'cubic', 'GDAL_lib'. */
  lemma DefaultsConstruct(im: Image, coreg: CoregResults)
    requires IsTwoByTwo(coreg.refGrid)
    ensures var r := Configure(im, coreg, DefaultOptions());
            r.Success? && r.value.warpAlg == GdalLib && r.value.outGrid == GetGrid(im.gt, im.xgsd, im.ygsd)
  {
  }

  /** With clipping, the no-resampling path adopts the sub-window get_mapPos cuts
      from the array anchored at updated_gt, and the new updated_gt comes from
      it; yet the record reports shift_gt, which this path never changes, as the
      'updated geotransform', and the returned GeoArray carries it too. */
  lemma NoResampleWithClip(cfg: Config, s: RunState, env: Env)
    requires ConfigValid(cfg)
    requires !NeedsResampling(cfg, s, env) && cfg.opts.clipToExtent
    ensures var (s1, r) := Run(cfg, s, env);
            var clipped := env.getMapPos(GeoArray(cfg.im.arr, s.updatedGt, s.shiftPrj),
                                         SnappedExtent(cfg, s, env), s.shiftPrj, cfg.nodata);
            && s1.arrShifted == Some(clipped.arr)
            && s1.updatedGt == clipped.gt && s1.updatedMapInfo == MapInfo(clipped.gt, clipped.prj)
            && r.Success? && r.value.updatedGeotransform == s.shiftGt
            && s1.geoArrayShifted == Some(GeoArray(clipped.arr, s.shiftGt, clipped.prj))
  {
  }

  /** On the GDAL_lib path the engine's geotransform becomes shift_gt and is the
      reported 'updated geotransform', while updated_gt keeps its old value. */
  lemma LibraryPathReportsWarpGt(cfg: Config, s: RunState, env: Env)
    requires ConfigValid(cfg)
    requires NeedsResampling(cfg, s, env) && cfg.warpAlg == GdalLib
    ensures var (s1, r) := Run(cfg, s, env);
            var out := env.warpNdarray(LibWarpCall(cfg, s, env));
            r.Success? && r.value.updatedGeotransform == out.gt && s1.updatedGt == s.updatedGt &&
            r.value.updatedMapInfo == MapInfo(out.gt, out.prj)
  {
  }

  /** Every path stores the chosen clip extent, so a second call always clips to
      the box bounds: a footprint clip is not repeated by a second call. */
  lemma ExtentStoredByRun(cfg: Config, s: RunState, env: Env)
    requires ConfigValid(cfg)
    ensures var s1 := Run(cfg, s, env).0;
            s1.clipExtent == Some(ChosenExtent(cfg, s)) &&
            ChosenExtent(cfg, s1) == BoxExtent(cfg.im.boxBoundsMap)
  {
  }

  /** The no-resampling path calls neither resampling engine nor band selection. */
  lemma NoResampleIgnoresEngines(cfg: Config, s: RunState, env: Env, other: Env)
    requires ConfigValid(cfg)
    requires !NeedsResampling(cfg, s, env)
    requires other == env.(warpNdarray := other.warpNdarray, gdalwarp := other.gdalwarp,
                           selectBand := other.selectBand)
    ensures Run(cfg, s, other) == Run(cfg, s, env)
  {
  }

  /** An explicit extent is discarded by the very first call, even with cliptoextent. */
  lemma ExplicitExtentDiscarded(cfg: Config, s: RunState, env: Env)
    requires ConfigValid(cfg)
    requires s.clipExtent.Some?
    ensures Run(cfg, s, env).0.clipExtent == Some(BoxExtent(cfg.im.boxBoundsMap))
  {
  }

  /** Without cliptoextent, a second no-resampling call reports exactly what the
      first one did: the path leaves shift_gt and shift_prj alone, so the guard
      chooses it again, and it sets the same fields from the same inputs. */
  lemma NoResampleIdempotentWithoutClip(cfg: Config, s: RunState, env: Env)
    requires ConfigValid(cfg)
    requires !cfg.opts.clipToExtent && !NeedsResampling(cfg, s, env)
    ensures var (s1, r1) := Run(cfg, s, env);
            !NeedsResampling(cfg, s1, env) && Run(cfg, s1, env).1 == r1
  {
  }

  /** A configuration with the keyword defaults (cliptoextent set) on a 10-unit
      grid, for an image whose footprint (0, 0, 50, 50) is smaller than its box. */
  function ClipDemoConfig(): Config {
    var gt: GeoTransform := [0, 10, 0, 100, 0, -10];
    var im := Image(Pixels([1]), gt, "p", None, 10, 10, Extent(0, 0, 50, 50),
                    BoxBounds(0, 100, 0, 100), "im.bsq");
    var coreg := CoregResults(None, None, MapInfo(gt, "p"), gt, [[0, 10], [100, 90]], "p");
    Config(im, coreg, DefaultOptions(), None, false, "VRT", GdalLib, [[0, 10], [100, 90]], (10, 10), [])
  }

  /** Collaborators for ClipDemoConfig: the grids and projections agree, so no
      resampling is needed, and the clipped array records the xmax it was cut at. */
  function ClipDemoEnv(): Env {
    Env((a, b) => true, (gt, xs, ys) => true, GridSnap, (arr, band) => arr,
        (ga: GeoArray, e: Extent, prj, nodata) => GeoArray(Pixels([e.xmax]), ga.gt, prj),
        (call: WarpCall) => GeoArray(call.inArr, call.srcGt, call.dstPrj),
        (cmd: WarpCommand) => CommandOutcome(0, true, GeoArray(Pixels([]), [0, 1, 0, 0, 0, -1], cmd.dstPrj)))
  }

  /** With cliptoextent two no-resampling calls are not alike: the first clips at
      the footprint (xmax 50), the second at the box bounds (xmax 100), because
      the first call stored its extent. */
  lemma ClippedNoResampleNotIdempotent()
    ensures var cfg, env := ClipDemoConfig(), ClipDemoEnv();
            var s := InitialState(cfg);
            var (s1, r1) := Run(cfg, s, env);
            var r2 := Run(cfg, s1, env).1;
            ConfigValid(cfg) && !NeedsResampling(cfg, s, env) && !NeedsResampling(cfg, s1, env) &&
            r1.Success? && r2.Success? &&
            r1.value.arrShifted == Some(Pixels([50])) && r2.value.arrShifted == Some(Pixels([100]))
  {
  }
}

=== FILE: geo.dfy ===
/**
 * Georeferencing values shared by the DESHIFTER model. Coordinates and pixel
 * sizes are integers; map info and geotransform conversions are identity on the
 * fields this core reads.
 */
module Geo {
  import opened Wrappers

  /** A GDAL geotransform: origin x, pixel width, row rotation, origin y,
      column rotation, pixel height. It always has six entries. */
  type GeoTransform = gt: seq<int> | |gt| == 6 witness [0, 1, 0, 0, 0, -1]

  /** A coordinate grid [[x0, x1], [y0, y1]]. Grids supplied by a caller may be
      malformed, so the type does not fix the shape. */
  type Grid = seq<seq<int>>

  /** A projection descriptor (WKT or EPSG text). */
  type Projection = string

  /** A pixel payload. Its contents never influence the decisions modelled here. */
  datatype Pixels = Pixels(values: seq<int>)

  /** A clip extent (xmin, ymin, xmax, ymax), the order of shapely's `bounds`. */
  datatype Extent = Extent(xmin: int, ymin: int, xmax: int, ymax: int)

  /** A bounding box in the order of GeoArray's `box.boundsMap`: (xmin, xmax, ymin, ymax). */
  datatype BoxBounds = BoxBounds(xmin: int, xmax: int, ymin: int, ymax: int)

  /** Map info as produced by geotransform2mapinfo(gt, prj); mapinfo2geotransform
      gives back `gt`. */
  datatype MapInfo = MapInfo(gt: GeoTransform, prj: Projection)

  /** The image to be de-shifted, with the attributes of it that this core reads:
      its array, geotransform, projection, no-data value, pixel sizes, the bounds
      of its data footprint and the bounds of its full raster box. */
  datatype Image = Image(
    arr: Pixels,
    gt: GeoTransform,
    prj: Projection,
    nodata: Option<int>,
    xgsd: int,
    ygsd: int,
    footprintBounds: Extent,
    boxBoundsMap: BoxBounds,
    filePath: string)

  /** A GeoArray built from an array, a geotransform and a projection. */
  datatype GeoArray = GeoArray(arr: Pixels, gt: GeoTransform, prj: Projection)

  /** A ground control point: pixel position and map position. */
  datatype Gcp = Gcp(col: int, row: int, x: int, y: int)

  /** Advisory warnings; the source emits them with warnings.warn. */
  datatype Warning =
    | MatchGsdIgnored
    | NotAlignable(inX: int, inY: int, outX: int, outY: int)

  function Min(a: int, b: int): int { if a <= b then a else b }

  function Max(a: int, b: int): int { if a >= b then a else b }

  function Abs(a: int): int { if a < 0 then -a else a }
}

=== FILE: grid_policy.dfy ===
/**
 * DESHIFTER._get_out_grid: the output coordinate grid chosen from the options
 * target_xyGrid, out_gsd, match_gsd and align_grids, in that order of priority.
 * Line references such as `:199` are to components/DeShifter.py.
 */
module GridPolicy {
  import opened Wrappers
  import opened Geo
  import opened Alignability

  /** The out_gsd keyword: a bare number, or a list/tuple of numbers. */
  datatype GsdArg = Scalar(size: int) | Sizes(items: seq<int>)

  /** Errors raised while the object is constructed. */
  datatype ConfigError =
    | MalformedTargetGrid          // assertion at :120
    | MalformedOutGsd              // assertion (or TypeError from len) at :121
    | PixelSizeZero                // ZeroDivisionError inside _grids_alignable
    | GridAxisTooShort             // IndexError while out_gsd is derived at :98
    | UnsupportedResampAlg(name: string)
    | UnsupportedWarpAlg(name: string)

  /** A grid of two axes with two samples each, as the co-registration results deliver. */
  predicate IsTwoByTwo(g: Grid) {
    |g| == 2 && |g[0]| == 2 && |g[1]| == 2
  }

  /** A grid whose pixel sizes can be read as at :98 and :123. */
  predicate AxesIndexable(g: Grid) {
    |g| == 2 && |g[0]| >= 2 && |g[1]| >= 2
  }

  /** The signed steps between the first two samples of each axis (:123). */
  function Steps(g: Grid): (int, int)
    requires AxesIndexable(g)
  {
    (g[0][1] - g[0][0], g[1][1] - g[1][0])
  }

  /** The first sample of each axis: the grid's origin. */
  function Origin(g: Grid): (int, int)
    requires AxesIndexable(g)
  {
    (g[0][0], g[1][0])
  }

  /** The lambda get_grid at :124: a north-up grid through the origin of `gt`. */
  function GetGrid(gt: GeoTransform, xgsd: int, ygsd: int): (g: Grid)
    ensures IsTwoByTwo(g) && AxesIndexable(g)
    ensures Origin(g) == (gt[0], gt[3])
    ensures Steps(g) == (xgsd, -ygsd)
  {
    [[gt[0], gt[0] + xgsd], [gt[3], gt[3] - ygsd]]
  }

  predicate TargetShapeOk(target: Option<Grid>) {
    target.None? || |target.value| == 2
  }

  /** A scalar out_gsd fails here: `len` of a number raises before :132 is reached. */
  predicate OutGsdShapeOk(outGsd: Option<GsdArg>) {
    outGsd.None? || (outGsd.value.Sizes? && |outGsd.value.items| == 2)
  }

  /** Both axes are alignable in the sense of whole multiples (the meaning of _grids_alignable). */
  ghost predicate Alignable(inX: int, inY: int, outX: int, outY: int) {
    IsMultipleOf(Max(inX, outX), Min(inX, outX)) && IsMultipleOf(Max(inY, outY), Min(inY, outY))
  }

  /** The chosen grid and the warnings issued while choosing it. */
  datatype GridChoice = GridChoice(grid: Grid, warnings: seq<Warning>)

  function GetOutGrid(alignGrids: bool, im: Image, refGt: GeoTransform, refGrid: Grid,
                      outGsd: Option<GsdArg>, matchGsd: bool, target: Option<Grid>)
    : (r: Result<GridChoice, ConfigError>)
    requires IsTwoByTwo(refGrid)
    // the shape assertions come first, in source order
    ensures !TargetShapeOk(target) ==> r == Failure(MalformedTargetGrid)
    ensures TargetShapeOk(target) && !OutGsdShapeOk(outGsd) ==> r == Failure(MalformedOutGsd)
    ensures outGsd.Some? && outGsd.value.Scalar? ==> r.Failure?
    // a well-shaped target grid wins outright, whatever the other options say
    ensures target.Some? && TargetShapeOk(target) && OutGsdShapeOk(outGsd) ==>
              r == Success(GridChoice(target.value, []))
    // an explicit output pixel size
    ensures target.None? && outGsd.Some? && OutGsdShapeOk(outGsd) ==>
              var ox, oy := outGsd.value.items[0], outGsd.value.items[1];
              (r.Failure? <==> alignGrids && CheckRaises(im.xgsd, im.ygsd, ox, oy)) &&
              (r.Success? ==>
                 AxesIndexable(r.value.grid) &&
                 Steps(r.value.grid) == (ox, -oy) &&
                 Origin(r.value.grid) ==
                   (if alignGrids && Alignable(im.xgsd, im.ygsd, ox, oy) then (refGt[0], refGt[3])
                    else (im.gt[0], im.gt[3])) &&
                 (MatchGsdIgnored in r.value.warnings <==> matchGsd && (ox, oy) != Steps(refGrid)) &&
                 (NotAlignable(im.xgsd, im.ygsd, ox, oy) in r.value.warnings <==>
                    alignGrids && !Alignable(im.xgsd, im.ygsd, ox, oy)))
    // match_gsd alone
    ensures target.None? && outGsd.None? && matchGsd ==>
              r.Success? && r.value.warnings == [] &&
              (alignGrids ==> r.value.grid == refGrid) &&
              (!alignGrids ==> AxesIndexable(r.value.grid) &&
                               Origin(r.value.grid) == (im.gt[0], im.gt[3]) &&
                               Steps(r.value.grid) == (Steps(refGrid).0, -Steps(refGrid).1))
    // no grid or size option
    ensures target.None? && outGsd.None? && !matchGsd ==>
              var (rx, ry) := Steps(refGrid);
              (r.Failure? <==> alignGrids && CheckRaises(im.xgsd, im.ygsd, rx, ry)) &&
              (r.Success? ==>
                 AxesIndexable(r.value.grid) &&
                 Steps(r.value.grid) == (im.xgsd, -im.ygsd) &&
                 Origin(r.value.grid) ==
                   (if alignGrids && Alignable(im.xgsd, im.ygsd, rx, ry) then (refGt[0], refGt[3])
                    else (im.gt[0], im.gt[3])) &&
                 r.value.warnings == (if !alignGrids || Alignable(im.xgsd, im.ygsd, rx, ry) then []
                                     else [NotAlignable(im.xgsd, im.ygsd, rx, ry)]))
  {
    if !TargetShapeOk(target) then Failure(MalformedTargetGrid)
    else if !OutGsdShapeOk(outGsd) then Failure(MalformedOutGsd)
    else
      var (refX, refY) := Steps(refGrid);
      if target.Some? then Success(GridChoice(target.value, []))
      else if outGsd.Some? then
        var ox, oy := outGsd.value.items[0], outGsd.value.items[1];
        var ignored := if matchGsd && (ox, oy) != (refX, refY) then [MatchGsdIgnored] else [];
        if !alignGrids then Success(GridChoice(GetGrid(im.gt, ox, oy), ignored))
        else if CheckRaises(im.xgsd, im.ygsd, ox, oy) then Failure(PixelSizeZero)
        else
          var a := GridsAlignable(im.xgsd, im.ygsd, ox, oy);
          Success(GridChoice(GetGrid(if a.ok then refGt else im.gt, ox, oy), ignored + a.warnings))
      else if matchGsd then
        if alignGrids then Success(GridChoice(refGrid, []))
        else Success(GridChoice(GetGrid(im.gt, refX, refY), []))
      else if !alignGrids then Success(GridChoice(GetGrid(im.gt, im.xgsd, im.ygsd), []))
      else if CheckRaises(im.xgsd, im.ygsd, refX, refY) then Failure(PixelSizeZero)
      else
        var a := GridsAlignable(im.xgsd, im.ygsd, refX, refY);
        Success(GridChoice(GetGrid(if a.ok then refGt else im.gt, im.xgsd, im.ygsd), a.warnings))
  }

  /**
   * With a north-up reference grid of 30-unit pixels and an image of 10-unit
   * pixels, align_grids alone does not align: the y test compares 10 with the
   * signed step -30 (see NorthUpReferenceStep), so the image's own grid is kept
   * and a warning is issued, although 30 is a multiple of 10.
   */
  lemma CoarserNorthUpReferenceKeepsImageGrid(im: Image, refGt: GeoTransform, refGrid: Grid)
    requires im.xgsd == 10 && im.ygsd == 10
    requires refGrid == [[0, 30], [300, 270]]
    ensures GetOutGrid(true, im, refGt, refGrid, None, false, None)
            == Success(GridChoice(GetGrid(im.gt, 10, 10), [NotAlignable(10, 10, 30, -30)]))
  {
  }

  /**
   * Against a north-up reference grid the match_gsd warning is issued even when
   * the requested size equals the reference size, because the requested pair is
   * compared with the signed reference steps.
   */
  lemma MatchGsdWarnsForReferenceSize(alignGrids: bool, im: Image, refGt: GeoTransform,
                                      refGrid: Grid, size: int)
    requires IsTwoByTwo(refGrid) && size > 0
    requires Steps(refGrid) == (size, -size)
    requires !(alignGrids && CheckRaises(im.xgsd, im.ygsd, size, size))
    ensures var r := GetOutGrid(alignGrids, im, refGt, refGrid, Some(Sizes([size, size])), true, None);
            r.Success? && MatchGsdIgnored in r.value.warnings
  {
  }
}

=== FILE: out_extent.dfy ===
/**
 * DESHIFTER._get_out_extent, its pure parts: which bounds are used as the clip
 * extent, and how each corner is snapped onto the output grid by find_nearest.
 * find_nearest belongs to another library; it is a parameter here, constrained
 * only by SnapContract.
 * Line references such as `:199` are to components/DeShifter.py.
 */
module OutExtent {
  import opened Wrappers
  import opened Geo
  import opened Alignability

  /** find_nearest's roundAlg: 'on' rounds up, 'off' rounds down, so that a
      min corner ('on') and a max corner ('off') both move inside the image. */
  datatype RoundAlg = On | Off

  /** An axis of two distinct samples: its pitch is nonzero and extrapolation is possible. */
  predicate WellFormedAxis(axis: seq<int>) {
    |axis| == 2 && axis[0] != axis[1]
  }

  /** find_nearest sorts the samples and extrapolates with the absolute increment. */
  function Pitch(axis: seq<int>): (p: int)
    requires WellFormedAxis(axis)
    ensures p > 0
  {
    Abs(axis[1] - axis[0])
  }

  /** c is a sample of the axis extended along its pitch in both directions. */
  predicate OnAxis(axis: seq<int>, c: int)
    requires WellFormedAxis(axis)
  {
    (c - axis[0]) % Pitch(axis) == 0
  }

  /** r is the nearest grid line at or beyond v in the direction `alg` rounds to:
      on the axis, on the inward side of v, and less than one pitch away. */
  predicate SnapsInside(axis: seq<int>, v: int, alg: RoundAlg, r: int)
    requires WellFormedAxis(axis)
  {
    OnAxis(axis, r) && Abs(r - v) < Pitch(axis) && if alg == On then v <= r else r <= v
  }

  /** All this model assumes of find_nearest(axis, v, roundAlg, extrapolate=True). */
  ghost predicate SnapContract(snap: (seq<int>, int, RoundAlg) -> int) {
    forall axis, v, alg :: WellFormedAxis(axis) ==> SnapsInside(axis, v, alg, snap(axis, v, alg))
  }

  /** A snapping function meeting SnapContract: the nearest grid line at or
      above v ('on') or at or below v ('off'). It shows the contract can be met. */
  function GridSnap(axis: seq<int>, v: int, alg: RoundAlg): (r: int)
    ensures WellFormedAxis(axis) ==> SnapsInside(axis, v, alg, r)
  {
    if !WellFormedAxis(axis) then v
    else
      var p := Pitch(axis);
      var q := (v - axis[0]) / p;
      var below := axis[0] + q * p;
      MultipleModZero(q, p);
      MultipleModZero(q + 1, p);
      assert below - axis[0] == Times(q, p);
      assert below + p - axis[0] == Times(q + 1, p);
      if alg == Off || below == v then below else below + p
  }

  /** Two grid lines less than one pitch apart are the same line. */
  lemma {:induction false} OnAxisClose(axis: seq<int>, u: int, w: int)
    requires WellFormedAxis(axis) && OnAxis(axis, u) && OnAxis(axis, w)
    requires 0 <= w - u < Pitch(axis)
    ensures u == w
  {
    var p := Pitch(axis);
    var qu, qw := (u - axis[0]) / p, (w - axis[0]) / p;
    assert u - axis[0] == qu * p;
    assert w - axis[0] == qw * p;
    assert w - u == (qw - qu) * p;
    MultipleAtLeastPitch(qw - qu, p);
  }

  /** A coordinate already on a grid line is left where it is: only odd
      coordinates are moved. */
  lemma {:induction false} SnapFixesGridLine(snap: (seq<int>, int, RoundAlg) -> int,
                                             axis: seq<int>, v: int, alg: RoundAlg)
    ensures SnapContract(snap) && WellFormedAxis(axis) && OnAxis(axis, v) ==> snap(axis, v, alg) == v
  {
    if SnapContract(snap) && WellFormedAxis(axis) && OnAxis(axis, v) {
      var r := snap(axis, v, alg);
      assert SnapsInside(axis, v, alg, r);
      if alg == On {
        OnAxisClose(axis, v, r);
      } else {
        OnAxisClose(axis, r, v);
      }
    }
  }

  lemma GridSnapMeetsContract()
    ensures SnapContract(GridSnap)
  {
  }

  /** The box bounds reordered from (xmin, xmax, ymin, ymax) as at :180-181. */
  function BoxExtent(b: BoxBounds): (e: Extent)
    // the same four numbers: reading them back in box order gives the box bounds again
    ensures BoxBounds(e.xmin, e.xmax, e.ymin, e.ymax) == b
  {
    Extent(b.xmin, b.ymin, b.xmax, b.ymax)
  }

  /** The extent chosen at :177-181. */
  function ChooseClipExtent(clipToExtent: bool, clipExtent: Option<Extent>, im: Image): (e: Extent)
    ensures clipToExtent && clipExtent.None? ==> e == im.footprintBounds
    // an explicitly supplied extent is never used: it is replaced by the box bounds
    ensures clipExtent.Some? ==> e == BoxExtent(im.boxBoundsMap)
    ensures !clipToExtent ==> e == BoxExtent(im.boxBoundsMap)
  {
    if clipToExtent && clipExtent.None? then im.footprintBounds
    else BoxExtent(im.boxBoundsMap)
  }

  /** The corners snapped as at :185-190. ymax is snapped against the x axis
      grid[0], exactly as the source does. */
  function SnapExtent(grid: Grid, e: Extent, snap: (seq<int>, int, RoundAlg) -> int): (s: Extent)
    requires |grid| == 2
    // every corner lands on its grid line inside the extent, less than one pitch away
    ensures SnapContract(snap) && WellFormedAxis(grid[0]) ==>
              OnAxis(grid[0], s.xmin) && OnAxis(grid[0], s.xmax) && OnAxis(grid[0], s.ymax) &&
              e.xmin <= s.xmin < e.xmin + Pitch(grid[0]) &&
              e.xmax - Pitch(grid[0]) < s.xmax <= e.xmax &&
              e.ymax - Pitch(grid[0]) < s.ymax <= e.ymax
    ensures SnapContract(snap) && WellFormedAxis(grid[1]) ==>
              OnAxis(grid[1], s.ymin) && e.ymin <= s.ymin < e.ymin + Pitch(grid[1])
    // corners already on their grid line stay where they are
    ensures SnapContract(snap) && WellFormedAxis(grid[0]) ==>
              (OnAxis(grid[0], e.xmin) ==> s.xmin == e.xmin) &&
              (OnAxis(grid[0], e.xmax) ==> s.xmax == e.xmax) &&
              (OnAxis(grid[0], e.ymax) ==> s.ymax == e.ymax)
    ensures SnapContract(snap) && WellFormedAxis(grid[1]) ==>
              (OnAxis(grid[1], e.ymin) ==> s.ymin == e.ymin)
  {
    SnapFixesGridLine(snap, grid[0], e.xmin, On);
    SnapFixesGridLine(snap, grid[1], e.ymin, On);
    SnapFixesGridLine(snap, grid[0], e.xmax, Off);
    SnapFixesGridLine(snap, grid[0], e.ymax, Off);
    Extent(snap(grid[0], e.xmin, On), snap(grid[1], e.ymin, On),
           snap(grid[0], e.xmax, Off), snap(grid[0], e.ymax, Off))
  }

  /** Once an extent has been chosen it is stored, so a later choice always
      takes the box bounds, even where the first one took the footprint. */
  lemma SecondChoiceUsesBox(clipToExtent: bool, clipExtent: Option<Extent>, im: Image)
    ensures var first := ChooseClipExtent(clipToExtent, clipExtent, im);
            ChooseClipExtent(clipToExtent, Some(first), im) == BoxExtent(im.boxBoundsMap)
  {
  }

  /** Odd coordinates move inside: (5, 5, 95, 95) on a 10-unit grid through 0
      becomes (10, 10, 90, 90), for the snapping function GridSnap. */
  lemma InwardSnapExample()
    ensures SnapExtent([[0, 10], [100, 90]], Extent(5, 5, 95, 95), GridSnap) == Extent(10, 10, 90, 90)
  {
  }

  /** An extent already on the grid is returned unchanged. */
  lemma OnGridExtentUnchanged(snap: (seq<int>, int, RoundAlg) -> int)
    requires SnapContract(snap)
    ensures SnapExtent([[0, 10], [0, 10]], Extent(0, 0, 100, 100), snap) == Extent(0, 0, 100, 100)
  {
  }

  /** Because ymax is snapped against the x axis, it need not lie on the y axis:
      with x lines at 10k and y lines at 5 + 10k, ymax 100 stays 100. */
  lemma YmaxOffTheYAxis()
    ensures var grid := [[0, 10], [5, -5]];
            var s := SnapExtent(grid, Extent(0, 0, 100, 100), GridSnap);
            WellFormedAxis(grid[1]) && s.ymax == 100 && !OnAxis(grid[1], s.ymax) && OnAxis(grid[1], s.ymin)
  {
  }
}

=== FILE: wrappers.dfy ===
/** Option and Result, used for Python's None and for raised exceptions. */
module Wrappers {

  datatype Option<+T> = None | Some(value: T)

  datatype Result<+R, +E> = Success(value: R) | Failure(error: E)
}
